=== FILE: README.md ===
# redrecord, modelled in Dafny

redrecord is a side cache for ActiveRecord-style models. It stores the
results of expensive per-record computations ("cached fields") in one Redis
hash per record, keyed `"<table_name>:<id>"`, and keeps those hashes in step
with the record's lifecycle:

- the save and destroy callbacks append `[:save, record]` / `[:destroy, record]`
  pairs to a per-thread update queue, together with a `:save` for every record
  named by the class's invalidation fields (one hop of fan-out);
- the rollback callback discards the queue;
- the commit callback drains the queue in order, turning each entry into a
  Redis `DEL` or `HMSET`, and then clears it;
- reading a cached field on an instance fetches the record's Redis hash once,
  decodes the stored string, and falls back to the raw computation for a new
  record or a field the hash lacks.

Values are stored verbatim when they are strings that do not start with the
two Marshal format bytes, and as `Marshal.dump` output otherwise.

## Layout

| file | module | what it holds |
|---|---|---|
| wrappers.dfy | `Wrappers` | `Option` |
| codec.dfy | `Codec` | values, the abstract Marshal library and its laws, `is_marshalled?`, encode/decode |
| redis.dfy | `Redis` | the keyspace as a map of hashes; `DEL`, `HGETALL`, `HMSET` |
| records.dfy | `Records` | per-class cache declarations, records, `redrecord_key` |
| writethrough.dfy | `WriteThrough` | `add_to_cache!`, `remove_from_cache!` |
| updatequeue.dfy | `UpdateQueue` | the queue, the four lifecycle callbacks, the drain |
| attributecache.dfy | `AttributeCache` | the lazy per-instance read, `cached_fields`, `attribs_with_cached_fields` |
| referencemarshal.dfy | `ReferenceMarshal` | a concrete serialiser that satisfies the Marshal laws |
| scenarios.dfy | `Scenarios` | end-to-end consequences matching the repository's tests |

## Modelling choices

- **Marshal** is a parameter: `Codec.Marshal` holds a `dump` and a `load`
  function. The two facts the cache depends on — `load(dump(v)) == v`, and every
  dump starts with the bytes 4, 8 — are the predicate `Codec.Lawful`, and every
  lemma that needs them assumes `Lawful(m)` as a precondition. Everything else
  holds for any Marshal. `ReferenceMarshal.Reference` is one concrete
  serialiser (a simple unary-length format, not Ruby's) for which
  `ReferenceMarshal.ReferenceIsLawful` proves both laws, so the hypothesis
  can be met.
- **`is_marshalled?`** is modelled as written: it compares the first two
  characters of `Marshal.dump(nil)` with the first two characters of the
  string (Ruby's `str[0,2]`, shorter for short strings).
  `Codec.IsMarshalledIffPrefix` shows that, for a lawful Marshal, this is
  exactly "starts with the prefix".
- **The thread-local queue** is an explicit `UpdateQueue.Context` holding the
  queue and the Redis store. The save, destroy and rollback callbacks take
  a context and return one; the commit callback returns a
  `UpdateQueue.CommitOutcome`, which holds the context together with whether
  the drain completed or raised and at which entry.
- **Records** carry their class declaration (`Records.CacheConfig`), their id
  as it appears inside the key, the host's `new_record?` flag, the raw
  (`*_without_cache`) computation as a function of the field name, and the
  current value of each invalidation field as a `Records.Link`. A `Link` is
  nil/false, one record, or an array of records.
- **Redis errors.** `HMSET` with no field/value pair is a Redis error. That
  happens when `add_to_cache!` runs for a class with no cached field. The
  hooks never queue the self entry of such a class, but the invalidation
  fan-out can queue such a record. The model returns `None` from
  `Redis.HMSet` in that case. The commit then stops at that entry: the
  exception leaves the `each` loop before `clear`, so the operations before
  it stay applied and the queue is kept (`UpdateQueue.OnCommit`,
  `Scenarios.FanOutToUncachedClassRaises`).
- **HMSET sets only the named fields.** Fields of the hash outside the
  cached list keep their values (`lib/redrecord.rb:99` calls `hmset`).
- **A Redis error inside the commit loop propagates.** Nothing in
  `lib/redrecord.rb:79-88` rescues it, so `clear` is skipped and the queue
  stays as it was.

## Model

| member | source | states |
|---|---|---|
| Codec.IsMarshalled | lib/redrecord.rb:9-11 | `is_marshalled?`, compared on the first two characters as written; `Codec.IsMarshalledIffPrefix` proves that for a lawful Marshal it holds exactly for strings that start with the two format bytes |
| Codec.IsMarshalledIffPrefix | lib/redrecord.rb:9-11 | with a lawful Marshal, `is_marshalled?` holds of a string exactly when it starts with the two Marshal format bytes; strings shorter than two characters never count |
| Codec.Encode | lib/redrecord.rb:102 | the stored form of a value; `Codec.PlainStringVerbatim`, `Codec.PrefixedStringDumped` and `Codec.NonStringDumped` fix its three cases, `Codec.EncodeInjective` shows distinct values get distinct stored forms |
| Codec.Decode | lib/redrecord.rb:118 | reading a stored string back; `Codec.RoundTrip` proves it inverts `Codec.Encode`, `Codec.DecodeThenEncodePlain` that it keeps an unprefixed string as it is |
| Codec.RoundTrip | lib/redrecord.rb:102-118 | decoding the stored form of any value gives the value back: nil, booleans, integers, arrays, plain strings and strings that start with the Marshal prefix |
| Codec.PlainStringVerbatim | lib/redrecord.rb:102 | a string without the Marshal prefix is stored unchanged |
| Codec.PrefixedStringDumped | lib/redrecord.rb:102 | a string that starts with the Marshal prefix is stored as its Marshal dump, not verbatim |
| Codec.NonStringDumped | lib/redrecord.rb:102 | every non-string value, nil included, is stored as its Marshal dump and so carries the prefix |
| Codec.DecodeThenEncodePlain | lib/redrecord.rb:118 | a stored string without the prefix decodes to that same string, and encoding the result gives the stored string back |
| Codec.EncodeInjective | lib/redrecord.rb:102 | two values with the same stored form are equal |
| ReferenceMarshal.ReferenceIsLawful | lib/redrecord.rb:102-118 | the two Marshal properties the codec relies on (a dump loads back to the value; every dump starts with the bytes 4, 8) hold together for a concrete serialiser |
| Records.KeyFor | lib/redrecord.rb:90-92 | the key is the table name, one colon, then the id, character for character; `Records.KeyInjective` proves the key determines both parts for colon-free table names |
| Records.KeyInjective | lib/redrecord.rb:90-92 | for colon-free table names, the key `table:id` determines both the table name and the id, so distinct records never share a hash |
| WriteThrough.AddToCache | lib/redrecord.rb:98-105 | after `add_to_cache!` the record's hash maps every cached field to the encoding of its raw value; other fields of the hash and every other key are unchanged; a class with no cached field gets the Redis arity error. The HMSET arguments are built by the helper `WriteThrough.CachePairs`: the cached fields in declaration order, each with its encoded raw value (lines 100-103) |
| WriteThrough.RemoveFromCache | lib/redrecord.rb:94-96 | after `remove_from_cache!` the record's key is absent and every other key is unchanged |
| WriteThrough.WriteThenDecode | lib/redrecord.rb:98-105 | decoding what `add_to_cache!` stored for a cached field gives that field's raw value |
| UpdateQueue.LinkOpsSpec | lib/redrecord.rb:62-66 | an array value queues one save per element in array order, a single record queues one save, nil queues nothing |
| UpdateQueue.FanOut | lib/redrecord.rb:60-68 | the invalidation fan-out over the declared fields; `UpdateQueue.FanOutAllSaves`, `UpdateQueue.FanOutAppend` and `UpdateQueue.AbsentLinkAddsNothing` state its content, order and nil case |
| UpdateQueue.FanOutAllSaves | lib/redrecord.rb:60-68 | every entry of the invalidation fan-out is a save |
| UpdateQueue.FanOutAppend | lib/redrecord.rb:61 | the fan-out follows declaration order: the entries of later fields come after those of earlier ones |
| UpdateQueue.AbsentLinkAddsNothing | lib/redrecord.rb:65 | a nil invalidation field contributes nothing, wherever it is declared |
| UpdateQueue.SelfOp | lib/redrecord.rb:56 | the self entry is present exactly when the class has cached fields, and carries the hook's command and the record |
| UpdateQueue.OnSave | lib/redrecord.rb:55-58 | the after-save callback; `UpdateQueue.SaveHookAppends` states what it appends and that Redis is untouched |
| UpdateQueue.SaveHookAppends | lib/redrecord.rb:55-58 | the save hook keeps the earlier queue as a prefix, appends `[:save, self]` exactly when the class caches something, then the fan-out, and does not touch Redis |
| UpdateQueue.OnDestroy | lib/redrecord.rb:70-73 | the after-destroy callback; `UpdateQueue.DestroyHookAppends` states what it appends, `UpdateQueue.DestroyMirrorsSave` relates it to the save callback |
| UpdateQueue.DestroyHookAppends | lib/redrecord.rb:70-73 | the destroy hook keeps the earlier queue, appends `[:destroy, self]` exactly when the class caches something, then the fan-out, and does not touch Redis |
| UpdateQueue.DestroyMirrorsSave | lib/redrecord.rb:55-73 | the destroy hook's queue is the save hook's queue with the self entry retagged destroy, and identical when there is no self entry |
| UpdateQueue.RunHooksAppends | lib/redrecord.rb:55-73 | after any run of save and destroy hooks the queue is the old queue followed by each hook's entries in firing order, and Redis is unchanged |
| UpdateQueue.OnRollback | lib/redrecord.rb:75-77 | rollback empties the queue and leaves Redis unchanged |
| UpdateQueue.HooksThenRollback | lib/redrecord.rb:75-77 | whatever hooks ran, a rollback afterwards yields an empty queue and the Redis store the transaction started with. The result is the helper `UpdateQueue.Fresh` of the starting store: the empty queue a thread's `update_queue` starts with (lines 6-8) |
| UpdateQueue.Apply | lib/redrecord.rb:80-86 | a queued entry fails exactly when it is a save of a class with no cached fields; otherwise it changes only its own record's key |
| UpdateQueue.Drain | lib/redrecord.rb:80-86 | draining never changes a key that no queued entry names |
| UpdateQueue.DrainCompletesIffApplicable | lib/redrecord.rb:80-86 | the drain completes exactly when every queued save is of a class with cached fields |
| UpdateQueue.DrainStopsAtFirstError | lib/redrecord.rb:80-86 | a drain that raises stops at a save of a class with no cached fields; every entry before it is applicable, and draining just those entries completes with the store the raising drain leaves |
| UpdateQueue.DrainAppend | lib/redrecord.rb:80-86 | entries are applied in queue order: draining `q1 + q2` drains `q1`, then `q2` from where `q1` left Redis, and an error in `q1` stops everything |
| UpdateQueue.LastDestroyWins | lib/redrecord.rb:80-86 | when the last entry naming a key is a destroy, the key is absent after the drain |
| UpdateQueue.LastSaveWins | lib/redrecord.rb:80-86 | when the last entry naming a key is a save, each cached field of that record holds the encoding of its raw value after the drain |
| UpdateQueue.SaveIdempotent | lib/redrecord.rb:80-86 | duplicates are applied again, but draining a repeated save ends exactly as draining one save: the same store when the class caches something, the same raise at the first entry when it caches nothing |
| UpdateQueue.OnCommit | lib/redrecord.rb:79-88 | commit succeeds exactly when every queued entry can be applied, and then leaves the queue empty; when Redis raises, the queue is kept and the raising entry is a save of a class with no cached fields; keys no entry names are unchanged |
| AttributeCache.Read | lib/redrecord.rb:107-123 | one read of a cached field through the instance memo; `AttributeCache.ReadCases` states each branch, `AttributeCache.ReadFollows` that repeated reads agree with a first read |
| AttributeCache.ReadCases | lib/redrecord.rb:107-123 | a memoised field is answered from the memo with no other effect; a new record computes the raw value and never fetches; otherwise the hash is fetched only if not fetched before, a field it holds is decoded without computing, a field it lacks is computed; the answer is memoised and the rest of the memo kept. A freshly loaded instance, with nothing fetched or memoised, is the helper `AttributeCache.Load` |
| AttributeCache.SnapshotIsolatesReads | lib/redrecord.rb:111-113 | once an instance holds the fetched hash, its reads do not depend on what Redis currently holds |
| AttributeCache.ReadFollows | lib/redrecord.rb:115-122 | reading from an instance that earlier reads have changed answers the same as a first read from the original instance |
| AttributeCache.ReadFields | lib/redrecord.rb:107-123 | reading a list of fields in turn fetches the hash at most once (never for a new record or an instance that already fetched), gives each field the value a first read gives, memoises them all, and runs the raw computation at most once per field, only for fields not memoised and missing from the hash |
| AttributeCache.CachedFields | lib/redrecord.rb:129-131 | `cached_fields` maps exactly the declared cached fields, each to the value read through the cache, with at most one fetch |
| AttributeCache.AttribsWithCachedFields | lib/redrecord.rb:125-127 | the merged map holds the attributes and the cached fields, a cached field shadowing an attribute of the same name |
| Scenarios.SaveQueuesSelf | lib/redrecord.rb:55-58 | a class with cached fields and no invalidation field queues exactly its own save |
| Scenarios.SaveCommitThenFreshRead | test/test_all.rb:16-30 | after save and commit, the hash holds each cached field's encoded value, and another loaded instance of the same record reads the raw value from Redis without computing it |
| Scenarios.NilFieldStoredAsDump | test/test_all.rb:33-38 | a nil field is stored as exactly the Marshal dump of nil and reads back as nil |
| Scenarios.SaveRefreshesAssociated | test/test_all.rb:64-70 | saving a record whose invalidation field names a cached record queues only that record's save; commit refreshes that record's hash, and a freshly loaded, persisted instance of it reads the field from Redis without running the raw computation. This is the intent the comment on line 70 states. The test's own check (lines 71-73) reads from an instance its host reports as new, which takes the raw path instead: see `Scenarios.NewInstanceComputes` |
| Scenarios.NewInstanceComputes | test/test_all.rb:71-73 | an instance whose record is new answers with the raw computation and never fetches, whatever Redis holds (lib/redrecord.rb:117, 120). The user read in this test is such an instance: setup empties the saved set and the test saves only the groups. So the test passes whether or not the read-through works |
| Scenarios.DestroyCommitClears | test/test_all.rb:52-57 | after destroy and commit, HGETALL on the record's key answers the empty hash |
| Scenarios.SaveThenRollbackLeavesRedis | test/test_all.rb:59-62 | a save followed by a rollback leaves Redis unchanged and the queue empty |
| Scenarios.FanOutToUncachedClassRaises | lib/redrecord.rb:79-88 | a fan-out save of a class with no cached fields makes the commit raise and keeps the queue |

## Left out

- Redis client I/O (`Redrecord.redis`): Redis is the map `Redis.Store` with only the `DEL`, `HMSET` and `HGETALL` semantics the cache uses.
- The Marshal binary format: foreign library, kept behind `Codec.Marshal` and the laws in `Codec.Lawful`. The serialiser in `ReferenceMarshal` has a different byte layout after the prefix.
- `Thread.current` scoping of the queue: concurrency is not modelled; the queue is an explicit value.
- The `cache` and `invalidate_cache_on` class macros (`class_eval`, `instance_methods` diffing, `define_method`, `alias_method_chain`) and the callback wiring in `self.included`: metaprogramming. Their effect is the field lists of `Records.CacheConfig` and the `raw` function of `Records.Record`.
- The raw computation's dependence on outside state (such as `group_names` reading other saved records): a record's `raw` is a fixed function. A queued record is therefore applied at commit time with the values it had when queued.
- An invalidation field returning an array that holds nil, or a value that is not a record: `Records.Link` only admits records. In Ruby such an entry would fail at commit with a missing method.
- Changes of `new_record?` during an instance's lifetime: `isNew` is fixed per record value.
- String encodings and non-ASCII byte handling in Ruby's `String#[]` and `==`: strings are sequences of characters.
- Values other than nil, booleans, integers, strings and arrays. `Codec.Lawful` asks that loading a dump gives back an equal value. Many Ruby values break that: an object whose `==` compares identity (`Object.new`), `Float::NAN`, and anything holding them. For such a value `Codec.RoundTrip` does not describe Ruby; the read at `lib/redrecord.rb:118` returns a copy that is not `==` to the original.
- `Marshal.dump` raising `TypeError` (a Proc, an IO, a Hash with a default proc): `Codec.Marshal.dump` is total. In Ruby that raise happens inside `add_to_cache!` (`lib/redrecord.rb:102`), so the commit stops at that entry and keeps the queue, exactly as for the HMSET arity error. The model raises only for the arity error.
- Codec.Decode: Ruby's `Marshal.load` at `lib/redrecord.rb:118` raises `ArgumentError` on a string that starts with the two format bytes but is not a dump, such as the bare two bytes written by another client. The read then raises and memoises nothing. The model's `load` is total, so `AttributeCache.Read` and `AttributeCache.ReadCases` answer a value there. `add_to_cache!` never writes such a string, so only data from outside the cache reaches this case.
- The test scaffolding (`$saved`, the fake `new_record?`, nested `run_callbacks`): host glue.
- AttributeCache.ReadFields: the at-most-one fetch is proved over one run of reads from a given instance, not over an instance's whole lifetime across interleaved store changes; `AttributeCache.SnapshotIsolatesReads` covers what later reads see.

=== FILE: attributecache.dfy ===
/**
  The lazy, per-instance read side of the cache (`cached_method`,
  `redrecord_redis_cache`, `redrecord_cached_attrib_hash`): each field is
  resolved once per instance, the Redis hash is fetched at most once per
  instance, and a miss falls back to the raw computation without writing
  anything back. Reads take the store as input and return no store, so they
  never write to Redis.
 */
module AttributeCache {
  import opened Wrappers
  import opened Codec
  import opened Redis
  import opened Records

  /** A record instance with its two memos: the fetched Redis hash
      (`@redrecord_redis_cache`) and the resolved fields
      (`@redrecord_cached_attrib_hash`). */
  datatype Instance = Instance(rec: Record, fetched: Option<Hash>, resolved: map<FieldName, Value>)

  /** An instance as the host hands it out: nothing fetched or resolved. */
  function Load(r: Record): (i: Instance)
    ensures i.rec == r && i.fetched.None? && |i.resolved| == 0
  {
    Instance(r, None, map[])
  }

  /** One read of a cached field: the instance afterwards, the value, and
      whether this read fetched the Redis hash or ran the raw computation. */
  datatype ReadStep = ReadStep(inst: Instance, value: Value, fetchedNow: bool, computedNow: bool)

  /** `cached_method(f)`. */
  function Read(m: Marshal, s: Store, inst: Instance, f: FieldName): ReadStep {
    if f in inst.resolved then
      ReadStep(inst, inst.resolved[f], false, false)
    else if inst.rec.isNew then
      var v := inst.rec.raw(f);
      ReadStep(inst.(resolved := inst.resolved[f := v]), v, false, true)
    else
      var h := if inst.fetched.Some? then inst.fetched.value else HGetAll(s, RecordKey(inst.rec));
      var inst1 := inst.(fetched := Some(h));
      if f in h then
        var v := Decode(m, h[f]);
        ReadStep(inst1.(resolved := inst.resolved[f := v]), v, inst.fetched.None?, false)
      else
        var v := inst.rec.raw(f);
        ReadStep(inst1.(resolved := inst.resolved[f := v]), v, inst.fetched.None?, true)
  }

  /** The hash a non-new instance reads from: its memo, or what HGETALL
      returns now. */
  function Snapshot(s: Store, inst: Instance): Hash {
    if inst.fetched.Some? then inst.fetched.value else HGetAll(s, RecordKey(inst.rec))
  }

  /** What a read answers, case by case: a memoised field is answered from
      the memo with no other effect; a new record computes the raw value and
      never fetches; otherwise the Redis hash is fetched if this instance
      has not fetched it yet, a field it holds is decoded without running
      the raw computation, and a field it lacks is computed. In every case
      the answer is memoised and nothing else in the memo changes. */
  lemma ReadCases(m: Marshal, s: Store, inst: Instance, f: FieldName)
    ensures var r := Read(m, s, inst, f);
      && r.inst.rec == inst.rec
      && r.inst.resolved == inst.resolved[f := r.value]
      && (f in inst.resolved ==> r.value == inst.resolved[f] && r.inst == inst && !r.fetchedNow && !r.computedNow)
      && (f !in inst.resolved && inst.rec.isNew ==>
            r.value == inst.rec.raw(f) && r.computedNow && !r.fetchedNow && r.inst.fetched == inst.fetched)
      && (f !in inst.resolved && !inst.rec.isNew ==>
            && r.inst.fetched == Some(Snapshot(s, inst))
            && (r.fetchedNow <==> inst.fetched.None?)
            && (f in Snapshot(s, inst) ==> r.value == Decode(m, Snapshot(s, inst)[f]) && !r.computedNow)
            && (f !in Snapshot(s, inst) ==> r.value == inst.rec.raw(f) && r.computedNow))
  {
  }

  /** Once an instance holds the Redis hash, its reads no longer depend on
      what Redis holds: later changes to the store are not seen. */
  lemma SnapshotIsolatesReads(m: Marshal, s1: Store, s2: Store, inst: Instance, f: FieldName)
    requires inst.fetched.Some?
    ensures Read(m, s1, inst, f) == Read(m, s2, inst, f)
  {
  }

  /** `inst` is `start` after some reads against store `s`: same record, the
      memo of `start` kept, the hash fetched only as `s` held it, and every
      memoised field holding what a first read from `start` would give. */
  ghost predicate Follows(m: Marshal, s: Store, start: Instance, inst: Instance) {
    && inst.rec == start.rec
    && (start.fetched.Some? ==> inst.fetched == start.fetched)
    && (inst.fetched.Some? ==> inst.fetched == Some(Snapshot(s, start)))
    && (forall f :: f in start.resolved ==> f in inst.resolved && inst.resolved[f] == start.resolved[f])
    && (forall f :: f in inst.resolved ==> inst.resolved[f] == Read(m, s, start, f).value)
  }

  /** A read from a later instance answers what a read from the starting
      instance answers, and keeps the relation. */
  lemma ReadFollows(m: Marshal, s: Store, start: Instance, inst: Instance, f: FieldName)
    requires Follows(m, s, start, inst)
    ensures Read(m, s, inst, f).value == Read(m, s, start, f).value
    ensures Follows(m, s, start, Read(m, s, inst, f).inst)
  {
    ReadCases(m, s, inst, f);
    ReadCases(m, s, start, f);
    var r := Read(m, s, inst, f);
    forall g | g in r.inst.resolved
      ensures r.inst.resolved[g] == Read(m, s, start, g).value
    {
      if g != f {
        assert g in inst.resolved;
      }
    }
  }

  /** With both related to the same start, an instance reads from the same
      hash as the start would. */
  lemma FollowsSameSnapshot(m: Marshal, s: Store, start: Instance, inst: Instance)
    requires Follows(m, s, start, inst)
    ensures Snapshot(s, inst) == Snapshot(s, start)
  {
  }

  /** The values read so far are what first reads from `start` give, and
      are memoised. */
  ghost predicate ValuesSoFar(m: Marshal, s: Store, start: Instance, fields: seq<FieldName>, k: int,
                              inst: Instance, values: seq<Value>)
  {
    && 0 <= k <= |fields|
    && Follows(m, s, start, inst)
    && |values| == k
    && (forall i :: 0 <= i < k ==> values[i] == Read(m, s, start, fields[i]).value)
    && (forall i :: 0 <= i < k ==> fields[i] in inst.resolved)
  }

  /** At most one fetch happened, none for a new record or an instance that
      had already fetched. */
  ghost predicate FetchesSoFar(start: Instance, inst: Instance, fetches: nat) {
    && fetches <= 1
    && (fetches == 1 ==> inst.fetched.Some?)
    && (start.fetched.Some? || start.rec.isNew ==> fetches == 0)
    && (start.rec.isNew ==> inst.fetched == start.fetched)
  }

  /** The fields that ran the raw computation are distinct, memoised now,
      not memoised at the start, among the fields read, and misses of the
      Redis hash. */
  ghost predicate ComputedSoFar(s: Store, start: Instance, fields: seq<FieldName>, k: int,
                                inst: Instance, computed: seq<FieldName>)
    requires 0 <= k <= |fields|
  {
    && (forall i, j :: 0 <= i < j < |computed| ==> computed[i] != computed[j])
    && (forall i :: 0 <= i < |computed| ==> computed[i] in inst.resolved)
    && (forall i :: 0 <= i < |computed| ==> computed[i] !in start.resolved && computed[i] in fields[..k])
    && (forall i :: 0 <= i < |computed| ==> start.rec.isNew || computed[i] !in Snapshot(s, start))
  }

  /** The state of reading `fields[..k]` from `start`. */
  ghost predicate Progress(m: Marshal, s: Store, start: Instance, fields: seq<FieldName>, k: int,
                           inst: Instance, values: seq<Value>, fetches: nat, computed: seq<FieldName>)
  {
    && ValuesSoFar(m, s, start, fields, k, inst, values)
    && FetchesSoFar(start, inst, fetches)
    && ComputedSoFar(s, start, fields, k, inst, computed)
  }

  lemma ValuesStep(m: Marshal, s: Store, start: Instance, fields: seq<FieldName>, k: int,
                   inst: Instance, values: seq<Value>)
    requires ValuesSoFar(m, s, start, fields, k, inst, values)
    requires k < |fields|
    ensures var step := Read(m, s, inst, fields[k]);
      ValuesSoFar(m, s, start, fields, k + 1, step.inst, values + [step.value])
  {
    ReadCases(m, s, inst, fields[k]);
    ReadFollows(m, s, start, inst, fields[k]);
  }

  lemma FetchesStep(m: Marshal, s: Store, start: Instance, inst: Instance, fetches: nat, f: FieldName)
    requires Follows(m, s, start, inst)
    requires FetchesSoFar(start, inst, fetches)
    ensures var step := Read(m, s, inst, f);
      FetchesSoFar(start, step.inst, fetches + (if step.fetchedNow then 1 else 0))
  {
    ReadCases(m, s, inst, f);
  }

  lemma ComputedStep(m: Marshal, s: Store, start: Instance, fields: seq<FieldName>, k: int,
                     inst: Instance, computed: seq<FieldName>)
    requires 0 <= k < |fields|
    requires Follows(m, s, start, inst)
    requires forall i :: 0 <= i < k ==> fields[i] in inst.resolved
    requires ComputedSoFar(s, start, fields, k, inst, computed)
    ensures var step := Read(m, s, inst, fields[k]);
      ComputedSoFar(s, start, fields, k + 1, step.inst, computed + (if step.computedNow then [fields[k]] else []))
  {
    var f := fields[k];
    var step := Read(m, s, inst, f);
    ReadCases(m, s, inst, f);
    FollowsSameSnapshot(m, s, start, inst);
    var computed' := computed + (if step.computedNow then [f] else []);
    assert fields[..k + 1] == fields[..k] + [f];
    assert forall i :: 0 <= i < |computed| ==> computed'[i] == computed[i];
    if step.computedNow {
      assert computed'[|computed|] == f;
      assert f !in inst.resolved;
      assert forall i :: 0 <= i < |computed| ==> computed[i] != f;
    }
  }

  /** Reading the next field keeps `Progress`. */
  lemma ProgressStep(m: Marshal, s: Store, start: Instance, fields: seq<FieldName>, k: int,
                     inst: Instance, values: seq<Value>, fetches: nat, computed: seq<FieldName>)
    requires Progress(m, s, start, fields, k, inst, values, fetches, computed)
    requires k < |fields|
    ensures var step := Read(m, s, inst, fields[k]);
      Progress(m, s, start, fields, k + 1, step.inst, values + [step.value],
               fetches + (if step.fetchedNow then 1 else 0),
               computed + (if step.computedNow then [fields[k]] else []))
  {
    ValuesStep(m, s, start, fields, k, inst, values);
    FetchesStep(m, s, start, inst, fetches, fields[k]);
    ComputedStep(m, s, start, fields, k, inst, computed);
  }

  /** Reads `fields` in order on one instance, the way `cached_fields`
      calls each accessor in turn. */
  method ReadFields(m: Marshal, s: Store, start: Instance, fields: seq<FieldName>)
    returns (inst: Instance, values: seq<Value>, fetches: nat, computed: seq<FieldName>)
    ensures |values| == |fields|
    ensures forall i :: 0 <= i < |fields| ==> values[i] == Read(m, s, start, fields[i]).value
    ensures forall i :: 0 <= i < |fields| ==> fields[i] in inst.resolved && inst.resolved[fields[i]] == values[i]
    ensures fetches <= 1
    ensures start.fetched.Some? || start.rec.isNew ==> fetches == 0
    ensures forall i, j :: 0 <= i < j < |computed| ==> computed[i] != computed[j]
    ensures forall i :: 0 <= i < |computed| ==> computed[i] !in start.resolved && computed[i] in fields
    ensures forall i :: 0 <= i < |computed| ==> start.rec.isNew || computed[i] !in Snapshot(s, start)
  {
    inst := start;
    values := [];
    fetches := 0;
    computed := [];
    var k := 0;
    while k < |fields|
      invariant Progress(m, s, start, fields, k, inst, values, fetches, computed)
    {
      ProgressStep(m, s, start, fields, k, inst, values, fetches, computed);
      var step := Read(m, s, inst, fields[k]);
      if step.fetchedNow {
        fetches := fetches + 1;
      }
      if step.computedNow {
        computed := computed + [fields[k]];
      }
      values := values + [step.value];
      inst := step.inst;
      k := k + 1;
    }
    assert fields[..k] == fields;
    forall i | 0 <= i < |fields|
      ensures inst.resolved[fields[i]] == values[i]
    {
    }
  }

  /** `cached_fields`: the value of every cached field, read through the
      cache. The map holds exactly the cached fields, each with what a
      single read from the starting instance gives, and the Redis hash is
      fetched at most once for all of them. */
  method CachedFields(m: Marshal, s: Store, start: Instance)
    returns (inst: Instance, fields: map<FieldName, Value>, fetches: nat)
    ensures fields.Keys == set f | f in start.rec.config.cachedFields
    ensures forall f :: f in fields ==> fields[f] == Read(m, s, start, f).value
    ensures fetches <= 1
  {
    var values, computed;
    inst, values, fetches, computed := ReadFields(m, s, start, start.rec.config.cachedFields);
    var names := start.rec.config.cachedFields;
    fields := map[];
    var k := 0;
    while k < |names|
      invariant 0 <= k <= |names|
      invariant fields.Keys == set i | 0 <= i < k :: names[i]
      invariant forall f :: f in fields ==> fields[f] == Read(m, s, start, f).value
    {
      fields := fields[names[k] := values[k]];
      k := k + 1;
    }
    assert (set i | 0 <= i < |names| :: names[i]) == set f | f in names by {
      forall f | f in names
        ensures f in (set i | 0 <= i < |names| :: names[i])
      {
        var i :| 0 <= i < |names| && names[i] == f;
      }
    }
  }

  /** `attribs_with_cached_fields`: the host's attribute map with the cached
      fields merged over it; a cached field shadows an attribute of the same
      name. */
  method AttribsWithCachedFields(m: Marshal, s: Store, start: Instance, attributes: map<string, Value>)
    returns (inst: Instance, merged: map<string, Value>)
    ensures merged.Keys == attributes.Keys + set f | f in start.rec.config.cachedFields
    ensures forall f :: f in start.rec.config.cachedFields ==> merged[f] == Read(m, s, start, f).value
    ensures forall a :: a in attributes && a !in start.rec.config.cachedFields ==> merged[a] == attributes[a]
  {
    var cached, fetches;
    inst, cached, fetches := CachedFields(m, s, start);
    merged := attributes + cached;
  }
}

=== FILE: codec.dfy ===
/**
  The value codec of the side cache. Redis hashes hold strings only, so a
  cached field's value is written either verbatim (a plain string) or as a
  Marshal dump (everything else), and read back by looking at the first two
  bytes of the stored string.

  Ruby's Marshal is a foreign library: it is kept behind the `Marshal`
  datatype, a pair of total functions, and the two laws the cache relies on
  are collected in `Lawful`.
 */
module Codec {

  /** The Ruby values a cached field can produce. */
  datatype Value =
    | Nil
    | Bool(b: bool)
    | Int(i: int)
    | Str(s: string)
    | Arr(items: seq<Value>)

  /** The two bytes every Marshal dump starts with (format version 4.8). */
  const MarshalPrefix: string := ['\U{4}', '\U{8}']

  /** An abstract Marshal library: `dump` serialises, `load` deserialises. */
  datatype Marshal = Marshal(dump: Value -> string, load: string -> Value)

  /** The laws of Ruby's Marshal the cache depends on: loading a dump gives
      the value back, and every dump starts with the format prefix. */
  ghost predicate Lawful(m: Marshal) {
    && (forall v :: m.load(m.dump(v)) == v)
    && (forall v :: HasMarshalPrefix(m.dump(v)))
  }

  /** True iff `s` starts with the two Marshal format bytes. */
  predicate HasMarshalPrefix(s: string) {
    |s| >= 2 && s[..2] == MarshalPrefix
  }

  /** Ruby's `str[0,2]`: the first two characters, or the whole string when
      it is shorter. */
  function Take2(s: string): (r: string)
    ensures |r| == if |s| < 2 then |s| else 2
    ensures r <= s
  {
    if |s| < 2 then s else s[..2]
  }

  /** `Redrecord.is_marshalled?`: compares the first two characters of
      `s` with those of the dump of nil. */
  function IsMarshalled(m: Marshal, s: string): bool {
    Take2(m.dump(Nil)) == Take2(s)
  }

  /** With a lawful Marshal, the test against the dump of nil is exactly a
      test for the format prefix; in particular no string shorter than two
      characters counts as marshalled. */
  lemma IsMarshalledIffPrefix(m: Marshal, s: string)
    requires Lawful(m)
    ensures IsMarshalled(m, s) <==> HasMarshalPrefix(s)
  {
    assert HasMarshalPrefix(m.dump(Nil));
    assert Take2(m.dump(Nil)) == MarshalPrefix;
  }

  /** The stored form of a cached value: a string that does not look like
      a Marshal dump is kept as it is, every other value is dumped. */
  function Encode(m: Marshal, v: Value): string {
    if v.Str? && !IsMarshalled(m, v.s) then v.s else m.dump(v)
  }

  /** Reading a stored string back: a Marshal dump is loaded, anything
      else is the raw string. */
  function Decode(m: Marshal, stored: string): Value {
    if IsMarshalled(m, stored) then m.load(stored) else Str(stored)
  }

  /** Every value survives a trip through the cache: nil, arrays, integers,
      booleans, plain strings, and strings that happen to start with the
      Marshal prefix. */
  lemma RoundTrip(m: Marshal, v: Value)
    requires Lawful(m)
    ensures Decode(m, Encode(m, v)) == v
  {
    if v.Str? && !IsMarshalled(m, v.s) {
      assert Encode(m, v) == v.s;
    } else {
      IsMarshalledIffPrefix(m, m.dump(v));
      assert IsMarshalled(m, m.dump(v));
    }
  }

  /** A string without the Marshal prefix is stored unchanged, so a value
      like "John Smith" is human-readable in Redis. */
  lemma PlainStringVerbatim(m: Marshal, s: string)
    requires Lawful(m)
    requires !HasMarshalPrefix(s)
    ensures Encode(m, Str(s)) == s
  {
    IsMarshalledIffPrefix(m, s);
  }

  /** A string that starts with the Marshal prefix cannot be stored
      verbatim (it would be read back as a dump), so it is dumped. */
  lemma PrefixedStringDumped(m: Marshal, s: string)
    requires Lawful(m)
    requires HasMarshalPrefix(s)
    ensures Encode(m, Str(s)) == m.dump(Str(s))
  {
    IsMarshalledIffPrefix(m, s);
  }

  /** Every non-string value, nil included, is stored as its Marshal dump
      and so carries the prefix. */
  lemma NonStringDumped(m: Marshal, v: Value)
    requires Lawful(m)
    requires !v.Str?
    ensures Encode(m, v) == m.dump(v)
    ensures HasMarshalPrefix(Encode(m, v))
  {
  }

  /** Decoding never loses a stored string without the prefix: it comes
      back as that exact string, so Encode undoes Decode on such strings. */
  lemma DecodeThenEncodePlain(m: Marshal, s: string)
    requires Lawful(m)
    requires !HasMarshalPrefix(s)
    ensures Decode(m, s) == Str(s)
    ensures Encode(m, Decode(m, s)) == s
  {
    IsMarshalledIffPrefix(m, s);
  }

  /** Two values with the same stored form are equal: the encoding is
      injective. */
  lemma EncodeInjective(m: Marshal, v: Value, w: Value)
    requires Lawful(m)
    requires Encode(m, v) == Encode(m, w)
    ensures v == w
  {
    RoundTrip(m, v);
    RoundTrip(m, w);
  }
}

=== FILE: records.dfy ===
/**
  Records as the side cache sees them: the per-class declarations (cached
  fields and invalidation fields), each record's identity, and the raw,
  uncached computation behind each field. The class-level `cache` and
  `invalidate_cache_on` declarations become the two name lists of
  `CacheConfig`.
 */
module Records {
  import opened Codec
  import Redis

  type FieldName = string

  /** What the class declared: the fields whose values are cached, and the
      fields naming related records to re-cache when this one changes, each
      in declaration order. */
  datatype CacheConfig = CacheConfig(
    tableName: string,
    cachedFields: seq<FieldName>,
    invalidationFields: seq<FieldName>)

  /** The value of an invalidation field: nil or false (nothing to
      re-cache), one related record, or an array of related records. */
  datatype Link = Absent | Single(target: Record) | Collection(targets: seq<Record>)

  /** A record instance. `id` is the identity as it renders in a string,
      `isNew` is the host's `new_record?`, `raw(f)` is the uncached
      `f_without_cache` computation and `links(f)` the current value of an
      invalidation field. */
  datatype Record = Record(
    config: CacheConfig,
    id: string,
    isNew: bool,
    raw: FieldName -> Value,
    links: FieldName -> Link)

  /** `redrecord_key`: the table name and the id joined by a colon. */
  function KeyFor(tableName: string, id: string): (k: Redis.Key)
    ensures |k| == |tableName| + 1 + |id|
    ensures k[..|tableName|] == tableName && k[|tableName|] == ':' && k[|tableName| + 1..] == id
  {
    tableName + ":" + id
  }

  function RecordKey(r: Record): Redis.Key {
    KeyFor(r.config.tableName, r.id)
  }

  /** The index of the first colon in `s`, or |s| when there is none. */
  function FirstColon(s: string): (n: nat)
    ensures n <= |s|
    ensures forall i :: 0 <= i < n ==> s[i] != ':'
    ensures n < |s| ==> s[n] == ':'
  {
    if |s| == 0 then 0
    else if s[0] == ':' then 0
    else 1 + FirstColon(s[1..])
  }

  /** Table names carry no colon, so the key's first colon is the separator
      and the key determines both the table and the id: records of
      different tables, or with different ids, never share a hash. */
  lemma {:induction false} KeyInjective(t1: string, i1: string, t2: string, i2: string)
    requires ':' !in t1 && ':' !in t2
    requires KeyFor(t1, i1) == KeyFor(t2, i2)
    ensures t1 == t2 && i1 == i2
  {
    var k := KeyFor(t1, i1);
    SeparatorIsFirstColon(t1, i1);
    SeparatorIsFirstColon(t2, i2);
    assert |t1| == |t2|;
    assert t1 == k[..|t1|];
    assert t2 == k[..|t2|];
  }

  /** For a colon-free table name, the first colon of the key sits right
      after the table name. */
  lemma {:induction false} SeparatorIsFirstColon(t: string, id: string)
    requires ':' !in t
    ensures FirstColon(KeyFor(t, id)) == |t|
  {
    var k := KeyFor(t, id);
    assert forall i :: 0 <= i < |t| ==> k[i] == t[i];
    assert k[|t|] == ':';
  }
}

=== FILE: redis.dfy ===
/**
  The part of Redis the side cache talks to: a store of hashes, one per key,
  with the three commands it issues (DEL, HMSET, HGETALL).
 */
module Redis {
  import opened Wrappers

  type Key = string

  /** A Redis hash: field name to stored string. */
  type Hash = map<string, string>

  /** The whole keyspace of the database the cache uses. */
  type Store = map<Key, Hash>

  /** Key `k` is present in `s` exactly when it is present in `t`, and where
      present it names the same hash in both. */
  ghost predicate SameAt(s: Store, t: Store, k: Key) {
    (k in s <==> k in t) && (k in s ==> s[k] == t[k])
  }

  /** DEL key: the key is gone afterwards, whether or not it existed. */
  function Del(s: Store, k: Key): (r: Store)
    ensures k !in r
    ensures forall k' :: k' != k ==> SameAt(s, r, k')
  {
    s - {k}
  }

  /** HGETALL key: the hash at the key, or the empty hash when the key does
      not exist. */
  function HGetAll(s: Store, k: Key): (r: Hash)
    ensures k in s ==> r == s[k]
    ensures k !in s ==> r == map[]
  {
    if k in s then s[k] else map[]
  }

  /** True iff no pair after position `i` sets the same field again. */
  ghost predicate LastFor(pairs: seq<(string, string)>, i: int)
    requires 0 <= i < |pairs|
  {
    forall j :: i < j < |pairs| ==> pairs[j].0 != pairs[i].0
  }

  /** The fields and values an HMSET argument list sets, applied left to
      right, so that a field named twice ends with its later value. */
  function PairsToMap(pairs: seq<(string, string)>): (r: Hash)
    ensures forall f :: f in r <==> exists i :: 0 <= i < |pairs| && pairs[i].0 == f
    ensures forall i :: 0 <= i < |pairs| && LastFor(pairs, i) ==> r[pairs[i].0] == pairs[i].1
  {
    if |pairs| == 0 then map[]
    else
      var init := pairs[..|pairs| - 1];
      var last := pairs[|pairs| - 1];
      assert forall i :: 0 <= i < |init| ==> init[i] == pairs[i];
      PairsToMap(init)[last.0 := last.1]
  }

  /** When every field is always paired with the same value, the map holds
      each pair, wherever it stands in the list. */
  lemma {:induction false} PairsToMapConsistent(pairs: seq<(string, string)>)
    requires forall i, j :: 0 <= i < |pairs| && 0 <= j < |pairs| && pairs[i].0 == pairs[j].0 ==> pairs[i].1 == pairs[j].1
    ensures forall i :: 0 <= i < |pairs| ==> PairsToMap(pairs)[pairs[i].0] == pairs[i].1
  {
    if |pairs| > 0 {
      var init := pairs[..|pairs| - 1];
      assert forall i :: 0 <= i < |init| ==> init[i] == pairs[i];
      PairsToMapConsistent(init);
    }
  }

  /** HMSET key f1 v1 f2 v2 ...: sets each named field of the hash at the key
      (creating the hash if needed) and leaves its other fields as they were.
      Redis refuses the command with no field/value pair at all (a
      wrong-number-of-arguments error), which is `None` here. */
  function HMSet(s: Store, k: Key, pairs: seq<(string, string)>): (r: Option<Store>)
    ensures r.None? <==> |pairs| == 0
    ensures r.Some? ==> k in r.value
    ensures r.Some? ==> forall k' :: k' != k ==> SameAt(s, r.value, k')
    ensures r.Some? ==> forall i :: 0 <= i < |pairs| && LastFor(pairs, i) ==>
      pairs[i].0 in r.value[k] && r.value[k][pairs[i].0] == pairs[i].1
    ensures r.Some? ==> forall f :: f !in PairsToMap(pairs) ==>
      (f in r.value[k] <==> f in HGetAll(s, k)) &&
      (f in HGetAll(s, k) ==> r.value[k][f] == HGetAll(s, k)[f])
  {
    if |pairs| == 0 then None
    else Some(s[k := HGetAll(s, k) + PairsToMap(pairs)])
  }
}

=== FILE: referencemarshal.dfy ===
/**
  A concrete serialiser that satisfies both Marshal laws, showing that the
  hypothesis `Lawful(m)` of the codec lemmas can be met. It is not Ruby's
  binary format: lengths and integer magnitudes are written in unary, which
  keeps the parser and its proof short.

  Layout after the two prefix bytes: `N` nil, `T`/`F` booleans, `P`/`M`
  followed by the unary magnitude for non-negative/negative integers, `S`
  with a unary length then the characters, `A` with a unary count then the
  items one after another.
 */
module ReferenceMarshal {
  import opened Wrappers
  import opened Codec

  /** `n` ones closed by a dot. */
  function Unary(n: nat): (u: string)
    ensures |u| == n + 1
  {
    seq(n, _ => '1') + ['.']
  }

  /** Reads a unary number at the front of `s`, returning it and the rest. */
  function ParseUnary(s: string): (r: Option<(nat, string)>)
    ensures r.Some? ==> |r.value.1| < |s|
  {
    if |s| == 0 then None
    else if s[0] == '.' then Some((0, s[1..]))
    else if s[0] == '1' then
      match ParseUnary(s[1..])
      case None => None
      case Some((n, rest)) => Some((n + 1, rest))
    else None
  }

  lemma {:induction false} ParseUnaryRoundTrip(n: nat, rest: string)
    ensures ParseUnary(Unary(n) + rest) == Some((n, rest))
  {
    var s := Unary(n) + rest;
    if n == 0 {
      assert s[0] == '.' && s[1..] == rest;
    } else {
      assert s[0] == '1';
      assert s[1..] == Unary(n - 1) + rest;
      ParseUnaryRoundTrip(n - 1, rest);
    }
  }

  function Ser(v: Value): string
    decreases v, 1
  {
    match v
    case Nil => "N"
    case Bool(b) => if b then "T" else "F"
    case Int(i) => if i >= 0 then "P" + Unary(i) else "M" + Unary(-i)
    case Str(s) => "S" + Unary(|s|) + s
    case Arr(items) => "A" + Unary(|items|) + SerList(items)
  }

  function SerList(items: seq<Value>): string
    decreases items, 0
  {
    if |items| == 0 then "" else Ser(items[0]) + SerList(items[1..])
  }

  /** Reads one serialised value at the front of `s`. */
  function Parse(s: string): (r: Option<(Value, string)>)
    ensures r.Some? ==> |r.value.1| < |s|
    decreases |s|, 0
  {
    if |s| == 0 then None
    else if s[0] == 'N' then Some((Nil, s[1..]))
    else if s[0] == 'T' then Some((Bool(true), s[1..]))
    else if s[0] == 'F' then Some((Bool(false), s[1..]))
    else if s[0] == 'P' || s[0] == 'M' then
      match ParseUnary(s[1..])
      case None => None
      case Some((n, rest)) => Some((Int(if s[0] == 'P' then n as int else -(n as int)), rest))
    else if s[0] == 'S' then
      match ParseUnary(s[1..])
      case None => None
      case Some((n, rest)) => if n <= |rest| then Some((Str(rest[..n]), rest[n..])) else None
    else if s[0] == 'A' then
      match ParseUnary(s[1..])
      case None => None
      case Some((n, rest)) =>
        match ParseList(n, rest)
        case None => None
        case Some((items, rest')) => Some((Arr(items), rest'))
    else None
  }

  /** Reads `n` serialised values one after another. */
  function ParseList(n: nat, s: string): (r: Option<(seq<Value>, string)>)
    ensures r.Some? ==> |r.value.1| <= |s|
    decreases |s|, 1, n
  {
    if n == 0 then Some(([], s))
    else
      match Parse(s)
      case None => None
      case Some((v, rest)) =>
        match ParseList(n - 1, rest)
        case None => None
        case Some((vs, rest')) => Some(([v] + vs, rest'))
  }

  /** The parser reads back what the serialiser wrote, whatever follows. */
  lemma {:induction false} ParseRoundTrip(v: Value, rest: string)
    ensures Parse(Ser(v) + rest) == Some((v, rest))
    decreases v, 1
  {
    var s := Ser(v) + rest;
    match v
    case Nil => assert s[1..] == rest;
    case Bool(b) => assert s[1..] == rest;
    case Int(i) =>
      var n: nat := if i >= 0 then i else -i;
      assert s[1..] == Unary(n) + rest;
      ParseUnaryRoundTrip(n, rest);
    case Str(t) =>
      assert s[1..] == Unary(|t|) + (t + rest);
      ParseUnaryRoundTrip(|t|, t + rest);
      assert (t + rest)[..|t|] == t && (t + rest)[|t|..] == rest;
    case Arr(items) =>
      assert s[1..] == Unary(|items|) + (SerList(items) + rest);
      ParseUnaryRoundTrip(|items|, SerList(items) + rest);
      ParseListRoundTrip(items, rest);
  }

  lemma {:induction false} ParseListRoundTrip(items: seq<Value>, rest: string)
    ensures ParseList(|items|, SerList(items) + rest) == Some((items, rest))
    decreases items, 0
  {
    if |items| > 0 {
      var tail := SerList(items[1..]) + rest;
      assert SerList(items) + rest == Ser(items[0]) + tail;
      ParseRoundTrip(items[0], tail);
      ParseListRoundTrip(items[1..], rest);
      assert Parse(SerList(items) + rest) == Some((items[0], tail));
      assert ParseList(|items| - 1, tail) == Some((items[1..], rest));
      assert [items[0]] + items[1..] == items;
    } else {
      assert SerList(items) + rest == rest;
    }
  }

  function Dump(v: Value): string {
    MarshalPrefix + Ser(v)
  }

  /** Strings without the prefix, or that do not parse, load as nil. */
  function Load(s: string): Value {
    if HasMarshalPrefix(s) then
      match Parse(s[2..])
      case None => Nil
      case Some((v, _)) => v
    else Nil
  }

  const Reference: Marshal := Marshal(Dump, Load)

  /** The reference serialiser obeys both laws. */
  lemma ReferenceIsLawful()
    ensures Lawful(Reference)
  {
    forall v
      ensures Reference.load(Reference.dump(v)) == v
      ensures HasMarshalPrefix(Reference.dump(v))
    {
      var d := Dump(v);
      assert d[..2] == MarshalPrefix;
      assert d[2..] == Ser(v) + "";
      ParseRoundTrip(v, "");
    }
  }
}

=== FILE: scenarios.dfy ===
/**
  Whole-lifecycle consequences of the model, one per behaviour the
  repository's tests are about: save then commit then read on a fresh
  instance, a cached nil, invalidation through an association, destroy,
  and rollback.
 */
module Scenarios {
  import opened Codec
  import opened Redis
  import opened Records
  import opened WriteThrough
  import opened UpdateQueue
  import opened AttributeCache

  /** A class with cached fields and no invalidation field queues exactly
      its own save. */
  lemma SaveQueuesSelf(c: Context, r: Record)
    requires |c.queue| == 0
    requires |r.config.cachedFields| > 0 && |r.config.invalidationFields| == 0
    ensures OnSave(c, r).queue == [Op(Save, r)]
  {
    assert Invalidations(r) == [];
  }

  /** Saving and committing a record writes each cached field's encoded raw
      value to its hash; a later, different instance of the same persisted
      record then reads every cached field as that raw value, straight from
      Redis, without running the raw computation. */
  lemma SaveCommitThenFreshRead(m: Marshal, s: Store, r: Record, other: Record, f: FieldName)
    requires Lawful(m)
    requires |r.config.cachedFields| > 0 && |r.config.invalidationFields| == 0
    requires RecordKey(other) == RecordKey(r) && !other.isNew
    requires f in r.config.cachedFields
    ensures OnCommit(m, OnSave(Fresh(s), r)).Committed?
    ensures var s' := OnCommit(m, OnSave(Fresh(s), r)).ctx.store;
      && RecordKey(r) in s'
      && f in s'[RecordKey(r)] && s'[RecordKey(r)][f] == Encode(m, r.raw(f))
      && Read(m, s', Load(other), f).value == r.raw(f)
      && !Read(m, s', Load(other), f).computedNow
  {
    SaveQueuesSelf(Fresh(s), r);
    var op := Op(Save, r);
    DrainSingle(m, s, op);
    DrainCompletesIffApplicable(m, s, [op]);
    var s' := AddToCache(m, s, r).value;
    assert OnCommit(m, OnSave(Fresh(s), r)).ctx.store == s';
    RoundTrip(m, r.raw(f));
    ReadCases(m, s', Load(other), f);
  }

  /** A cached field whose raw value is nil is stored as exactly the Marshal
      dump of nil, and reads back as nil. */
  lemma NilFieldStoredAsDump(m: Marshal, s: Store, r: Record, f: FieldName)
    requires Lawful(m)
    requires f in r.config.cachedFields && r.raw(f) == Nil
    ensures AddToCache(m, s, r).Some?
    ensures AddToCache(m, s, r).value[RecordKey(r)][f] == m.dump(Nil)
    ensures Decode(m, AddToCache(m, s, r).value[RecordKey(r)][f]) == Nil
  {
    WriteThenDecode(m, s, r, f);
  }

  /** Saving a record of a class that caches nothing but declares one
      invalidation field naming a cached record queues just that record's
      save, and the commit refreshes that record's hash although it was
      never saved itself; a freshly loaded, persisted instance of that
      record then reads the field from Redis without running the raw
      computation. */
  lemma SaveRefreshesAssociated(m: Marshal, s: Store, g: Record, field: FieldName, u: Record, other: Record, f: FieldName)
    requires Lawful(m)
    requires |g.config.cachedFields| == 0 && g.config.invalidationFields == [field]
    requires g.links(field) == Single(u)
    requires f in u.config.cachedFields
    requires RecordKey(other) == RecordKey(u) && !other.isNew
    ensures OnSave(Fresh(s), g).queue == [Op(Save, u)]
    ensures OnCommit(m, OnSave(Fresh(s), g)).Committed?
    ensures var s' := OnCommit(m, OnSave(Fresh(s), g)).ctx.store;
      && RecordKey(u) in s' && f in s'[RecordKey(u)] && s'[RecordKey(u)][f] == Encode(m, u.raw(f))
      && Read(m, s', Load(other), f).value == u.raw(f)
      && !Read(m, s', Load(other), f).computedNow
  {
    assert [field][1..] == [];
    assert Invalidations(g) == LinkOps(Single(u)) + FanOut(g, []);
    var op := Op(Save, u);
    assert OnSave(Fresh(s), g).queue == [op];
    DrainSingle(m, s, op);
    DrainCompletesIffApplicable(m, s, [op]);
    var s' := AddToCache(m, s, u).value;
    assert OnCommit(m, OnSave(Fresh(s), g)).ctx.store == s';
    RoundTrip(m, u.raw(f));
    ReadCases(m, s', Load(other), f);
  }

  /** An instance of a record the host reports as new never consults Redis:
      it runs the raw computation, whatever the store holds. */
  lemma NewInstanceComputes(m: Marshal, s: Store, other: Record, f: FieldName)
    requires other.isNew
    ensures Read(m, s, Load(other), f).value == other.raw(f)
    ensures Read(m, s, Load(other), f).computedNow
    ensures !Read(m, s, Load(other), f).fetchedNow
  {
    ReadCases(m, s, Load(other), f);
  }

  /** Destroying and committing a cached record removes its hash: HGETALL
      on its key then answers the empty hash. */
  lemma DestroyCommitClears(m: Marshal, s: Store, r: Record)
    requires |r.config.cachedFields| > 0 && |r.config.invalidationFields| == 0
    ensures OnCommit(m, OnDestroy(Fresh(s), r)).Committed?
    ensures HGetAll(OnCommit(m, OnDestroy(Fresh(s), r)).ctx.store, RecordKey(r)) == map[]
  {
    assert Invalidations(r) == [];
    var op := Op(Destroy, r);
    assert OnDestroy(Fresh(s), r).queue == [op];
    DrainSingle(m, s, op);
    DrainCompletesIffApplicable(m, s, [op]);
  }

  /** A save followed by a rollback leaves Redis as it was. */
  lemma SaveThenRollbackLeavesRedis(s: Store, r: Record)
    ensures OnRollback(OnSave(Fresh(s), r)) == Fresh(s)
  {
    HooksThenRollback(Fresh(s), [AfterSave(r)]);
    assert [AfterSave(r)][1..] == [];
  }

  /** Saving a record whose invalidation field points at a record of a
      class with no cached field makes the commit raise at that entry: the
      queue is kept and Redis holds whatever came before it. */
  lemma FanOutToUncachedClassRaises(m: Marshal, s: Store, g: Record, field: FieldName, t: Record)
    requires |g.config.cachedFields| == 0 && g.config.invalidationFields == [field]
    requires g.links(field) == Single(t)
    requires |t.config.cachedFields| == 0
    ensures OnCommit(m, OnSave(Fresh(s), g)).Failed?
    ensures OnCommit(m, OnSave(Fresh(s), g)).ctx == OnSave(Fresh(s), g)
  {
    assert [field][1..] == [];
    assert Invalidations(g) == LinkOps(Single(t)) + FanOut(g, []);
    assert OnSave(Fresh(s), g).queue == [Op(Save, t)];
  }
}

=== FILE: updatequeue.dfy ===
/**
  The update queue: the save and destroy hooks record tagged operations,
  rollback discards them, and commit drains them in order into Redis. The
  source keeps the queue in a thread-local; here it travels explicitly in a
  `Context` together with the Redis store.
 */
module UpdateQueue {
  import opened Codec
  import opened Redis
  import opened Records
  import opened WriteThrough
  import opened Wrappers

  datatype Command = Save | Destroy

  /** A queued `[command, record]` pair. */
  datatype Op = Op(cmd: Command, rec: Record)

  type Queue = seq<Op>

  /** One execution context: its pending operations and the Redis store. */
  datatype Context = Context(queue: Queue, store: Store)

  /** The context a thread starts with: `update_queue ||= []`. */
  function Fresh(s: Store): (c: Context)
    ensures |c.queue| == 0 && c.store == s
  {
    Context([], s)
  }

  /** The operations one invalidation field's value contributes. */
  function LinkOps(l: Link): Queue {
    match l
    case Absent => []
    case Single(t) => [Op(Save, t)]
    case Collection(ts) => seq(|ts|, i requires 0 <= i < |ts| => Op(Save, ts[i]))
  }

  /** One save per array element, in array order; one save for a single
      record; none for nil. */
  lemma LinkOpsSpec(l: Link)
    ensures l.Absent? ==> |LinkOps(l)| == 0
    ensures l.Single? ==> LinkOps(l) == [Op(Save, l.target)]
    ensures l.Collection? ==> |LinkOps(l)| == |l.targets|
    ensures l.Collection? ==> forall i :: 0 <= i < |l.targets| ==> LinkOps(l)[i] == Op(Save, l.targets[i])
  {
  }

  /** `invalidations_for_redrecord_update_queue` over the given fields, in
      their order. */
  function FanOut(r: Record, fields: seq<FieldName>): Queue {
    if |fields| == 0 then []
    else LinkOps(r.links(fields[0])) + FanOut(r, fields[1..])
  }

  /** The fan-out of the record's declared invalidation fields. */
  function Invalidations(r: Record): Queue {
    FanOut(r, r.config.invalidationFields)
  }

  /** Every entry of the fan-out is a save, whether the hook that runs it is
      a save or a destroy. */
  lemma {:induction false} FanOutAllSaves(r: Record, fields: seq<FieldName>)
    ensures forall i :: 0 <= i < |FanOut(r, fields)| ==> FanOut(r, fields)[i].cmd == Save
  {
    if |fields| > 0 {
      FanOutAllSaves(r, fields[1..]);
      LinkOpsSpec(r.links(fields[0]));
    }
  }

  /** Fan-out follows declaration order: the fields of a longer list
      contribute their operations after those of its prefix. */
  lemma {:induction false} FanOutAppend(r: Record, fs: seq<FieldName>, gs: seq<FieldName>)
    ensures FanOut(r, fs + gs) == FanOut(r, fs) + FanOut(r, gs)
  {
    if |fs| == 0 {
      assert fs + gs == gs;
    } else {
      assert (fs + gs)[1..] == fs[1..] + gs;
      FanOutAppend(r, fs[1..], gs);
    }
  }

  /** A field whose value is nil adds nothing to the fan-out, wherever it
      stands in the declaration list. */
  lemma AbsentLinkAddsNothing(r: Record, fs: seq<FieldName>, f: FieldName, gs: seq<FieldName>)
    requires r.links(f).Absent?
    ensures FanOut(r, fs + [f] + gs) == FanOut(r, fs) + FanOut(r, gs)
  {
    assert [f][1..] == [];
    assert LinkOps(r.links(f)) == [];
    var one := FanOut(r, [f]);
    assert one == LinkOps(r.links(f)) + FanOut(r, []);
    assert one == [];
    FanOutAppend(r, fs + [f], gs);
    FanOutAppend(r, fs, [f]);
    var pre := FanOut(r, fs);
    assert pre + one == pre;
  }

  /** The self entry of a hook: present only when the class caches
      something. */
  function SelfOp(cmd: Command, r: Record): (ops: Queue)
    ensures |ops| == if |r.config.cachedFields| == 0 then 0 else 1
    ensures |ops| == 1 ==> ops[0] == Op(cmd, r)
  {
    if |r.config.cachedFields| == 0 then [] else [Op(cmd, r)]
  }

  /** `redrecord_update_queue_save`: the self entry, then the invalidation
      fan-out. */
  function OnSave(c: Context, r: Record): Context {
    Context(c.queue + SelfOp(Save, r) + Invalidations(r), c.store)
  }

  /** `redrecord_update_queue_destroy`: as the save hook, with the self entry
      tagged destroy. */
  function OnDestroy(c: Context, r: Record): Context {
    Context(c.queue + SelfOp(Destroy, r) + Invalidations(r), c.store)
  }

  /** The save hook appends `[:save, self]` exactly when the class caches
      something, followed by the invalidation fan-out; the earlier entries
      and Redis are untouched. */
  lemma SaveHookAppends(c: Context, r: Record)
    ensures OnSave(c, r).store == c.store
    ensures c.queue <= OnSave(c, r).queue
    ensures |OnSave(c, r).queue| == |c.queue| + |SelfOp(Save, r)| + |Invalidations(r)|
    ensures |r.config.cachedFields| > 0 <==> |OnSave(c, r).queue| == |c.queue| + 1 + |Invalidations(r)|
    ensures |r.config.cachedFields| > 0 ==> OnSave(c, r).queue[|c.queue|] == Op(Save, r)
    ensures OnSave(c, r).queue[|c.queue| + |SelfOp(Save, r)|..] == Invalidations(r)
  {
    var q := OnSave(c, r).queue;
    assert q == (c.queue + SelfOp(Save, r)) + Invalidations(r);
    assert q[..|c.queue|] == c.queue;
  }

  /** The destroy hook appends `[:destroy, self]` exactly when the class
      caches something, followed by the same fan-out as the save hook. */
  lemma DestroyHookAppends(c: Context, r: Record)
    ensures OnDestroy(c, r).store == c.store
    ensures c.queue <= OnDestroy(c, r).queue
    ensures |OnDestroy(c, r).queue| == |c.queue| + |SelfOp(Destroy, r)| + |Invalidations(r)|
    ensures |r.config.cachedFields| > 0 ==> OnDestroy(c, r).queue[|c.queue|] == Op(Destroy, r)
    ensures OnDestroy(c, r).queue[|c.queue| + |SelfOp(Destroy, r)|..] == Invalidations(r)
  {
    var q := OnDestroy(c, r).queue;
    assert q == (c.queue + SelfOp(Destroy, r)) + Invalidations(r);
    assert q[..|c.queue|] == c.queue;
  }

  /** Replaces the command of the entry at position `i`. */
  function Retag(q: Queue, i: nat, cmd: Command): (q': Queue)
    requires i < |q|
    ensures |q'| == |q|
    ensures q'[i] == Op(cmd, q[i].rec)
    ensures forall j :: 0 <= j < |q| && j != i ==> q'[j] == q[j]
  {
    q[i := Op(cmd, q[i].rec)]
  }

  /** The destroy hook appends exactly what the save hook appends, except
      that the self entry (when there is one) says destroy instead of
      save. */
  lemma DestroyMirrorsSave(c: Context, r: Record)
    ensures |r.config.cachedFields| == 0 ==> OnDestroy(c, r) == OnSave(c, r)
    ensures |r.config.cachedFields| > 0 ==>
      OnDestroy(c, r).queue == Retag(OnSave(c, r).queue, |c.queue|, Destroy)
  {
    if |r.config.cachedFields| > 0 {
      var d := OnDestroy(c, r).queue;
      var t := Retag(OnSave(c, r).queue, |c.queue|, Destroy);
      assert |d| == |t|;
      forall j | 0 <= j < |d|
        ensures d[j] == t[j]
      {
        if j < |c.queue| {
          assert d[j] == c.queue[j];
        } else if j > |c.queue| {
          assert d[j] == Invalidations(r)[j - |c.queue| - 1];
          assert OnSave(c, r).queue[j] == Invalidations(r)[j - |c.queue| - 1];
        }
      }
    }
  }

  /** `redrecord_update_queue_rollback`: the queue is emptied and Redis is
      not touched. */
  function OnRollback(c: Context): (c': Context)
    ensures |c'.queue| == 0
    ensures c'.store == c.store
  {
    Context([], c.store)
  }

  /** One lifecycle callback the host fires inside a transaction. */
  datatype Hook = AfterSave(saved: Record) | AfterDestroy(destroyed: Record)

  /** The entries one hook appends to the queue. */
  function HookOps(h: Hook): Queue {
    match h
    case AfterSave(r) => SelfOp(Save, r) + Invalidations(r)
    case AfterDestroy(r) => SelfOp(Destroy, r) + Invalidations(r)
  }

  function RunHook(c: Context, h: Hook): Context {
    match h
    case AfterSave(r) => OnSave(c, r)
    case AfterDestroy(r) => OnDestroy(c, r)
  }

  /** The hooks of a transaction, fired in order. */
  function RunHooks(c: Context, hs: seq<Hook>): Context
    decreases |hs|
  {
    if |hs| == 0 then c else RunHooks(RunHook(c, hs[0]), hs[1..])
  }

  /** All entries the given hooks append, in firing order. */
  function AllHookOps(hs: seq<Hook>): Queue
    decreases |hs|
  {
    if |hs| == 0 then [] else HookOps(hs[0]) + AllHookOps(hs[1..])
  }

  /** Hooks only append: after any run of them the queue is the old queue
      followed by each hook's entries in firing order, and Redis has not
      been touched. */
  lemma {:induction false} RunHooksAppends(c: Context, hs: seq<Hook>)
    ensures RunHooks(c, hs).queue == c.queue + AllHookOps(hs)
    ensures RunHooks(c, hs).store == c.store
    decreases |hs|
  {
    if |hs| == 0 {
      assert c.queue + [] == c.queue;
    } else {
      var c1 := RunHook(c, hs[0]);
      assert c1 == Context(c.queue + HookOps(hs[0]), c.store) by {
        match hs[0]
        case AfterSave(r) =>
          AppendAssoc(c.queue, SelfOp(Save, r), Invalidations(r));
        case AfterDestroy(r) =>
          AppendAssoc(c.queue, SelfOp(Destroy, r), Invalidations(r));
      }
      assert RunHooks(c, hs) == RunHooks(c1, hs[1..]);
      RunHooksAppends(c1, hs[1..]);
      assert AllHookOps(hs) == HookOps(hs[0]) + AllHookOps(hs[1..]);
      AppendAssoc(c.queue, HookOps(hs[0]), AllHookOps(hs[1..]));
    }
  }

  lemma AppendAssoc<T>(a: seq<T>, b: seq<T>, c: seq<T>)
    ensures (a + b) + c == a + (b + c)
  {
  }

  /** Whatever the hooks queued, a rollback leaves an empty queue and Redis
      exactly as the transaction found it. */
  lemma HooksThenRollback(c: Context, hs: seq<Hook>)
    ensures OnRollback(RunHooks(c, hs)) == Fresh(c.store)
  {
    RunHooksAppends(c, hs);
  }

  /** The Redis effect of one queued operation: DEL for a destroy, HMSET of
      the cached fields for a save. `None` is the error Redis raises for a
      save of a record whose class caches nothing. */
  function Apply(m: Marshal, s: Store, op: Op): (r: Option<Store>)
    ensures r.None? <==> op.cmd == Save && |op.rec.config.cachedFields| == 0
    ensures r.Some? ==> forall k :: k != RecordKey(op.rec) ==> SameAt(s, r.value, k)
  {
    match op.cmd
    case Destroy => Some(RemoveFromCache(s, op.rec))
    case Save => AddToCache(m, s, op.rec)
  }

  /** True iff no operation of `q` concerns key `k`. */
  ghost predicate Untouched(q: Queue, k: Key) {
    forall i :: 0 <= i < |q| ==> RecordKey(q[i].rec) != k
  }

  /** True iff every operation of `q` can be applied: each save concerns a
      class with cached fields. */
  ghost predicate Applicable(q: Queue) {
    forall i :: 0 <= i < |q| ==> q[i].cmd == Destroy || |q[i].rec.config.cachedFields| > 0
  }

  /** The result of draining: every operation applied, or Redis raised at
      position `at`, with the operations before it already applied. */
  datatype Drained = Done(store: Store) | Raised(store: Store, at: nat)

  /** The loop of `redrecord_update_queue_commit`: operations applied in
      queue order, duplicates included, stopping at the first error. Keys no
      operation names keep their hashes. */
  function Drain(m: Marshal, s: Store, q: Queue): (d: Drained)
    ensures forall k :: Untouched(q, k) ==> SameAt(s, d.store, k)
    decreases |q|
  {
    if |q| == 0 then Done(s)
    else
      match Apply(m, s, q[0])
      case None => Raised(s, 0)
      case Some(s') =>
        assert forall k :: Untouched(q, k) ==> Untouched(q[1..], k) by {
          assert forall i :: 0 <= i < |q[1..]| ==> q[1..][i] == q[i + 1];
        }
        match Drain(m, s', q[1..])
        case Done(t) => Done(t)
        case Raised(t, at) => Raised(t, at + 1)
  }

  /** A queue is applicable when its head is and its tail is. */
  lemma ApplicableUnfold(q: Queue)
    requires |q| > 0
    ensures Applicable(q) <==> (q[0].cmd == Destroy || |q[0].rec.config.cachedFields| > 0) && Applicable(q[1..])
  {
    assert forall i :: 0 <= i < |q[1..]| ==> q[1..][i] == q[i + 1];
  }

  /** The drain completes exactly when every queued operation can be
      applied. */
  lemma {:induction false} DrainCompletesIffApplicable(m: Marshal, s: Store, q: Queue)
    ensures Drain(m, s, q).Done? <==> Applicable(q)
    decreases |q|
  {
    if |q| > 0 {
      ApplicableUnfold(q);
      match Apply(m, s, q[0])
      case None =>
      case Some(s') => DrainCompletesIffApplicable(m, s', q[1..]);
    }
  }

  /** When the drain stops, it stops at the first save of a record whose
      class caches nothing, after applying every operation before it. */
  lemma {:induction false} DrainStopsAtFirstError(m: Marshal, s: Store, q: Queue)
    requires Drain(m, s, q).Raised?
    ensures Drain(m, s, q).at < |q|
    ensures q[Drain(m, s, q).at].cmd == Save
    ensures |q[Drain(m, s, q).at].rec.config.cachedFields| == 0
    ensures Applicable(q[..Drain(m, s, q).at])
    ensures Drain(m, s, q[..Drain(m, s, q).at]) == Done(Drain(m, s, q).store)
    decreases |q|
  {
    assert |q| > 0;
    match Apply(m, s, q[0])
    case None =>
    case Some(s') =>
      var rest := Drain(m, s', q[1..]);
      assert Drain(m, s, q) == Raised(rest.store, rest.at + 1);
      DrainStopsAtFirstError(m, s', q[1..]);
      var at := rest.at;
      assert q[at + 1] == q[1..][at];
      var done := q[..at + 1];
      forall i | 0 <= i < |done|
        ensures done[i].cmd == Destroy || |done[i].rec.config.cachedFields| > 0
      {
        if i > 0 {
          assert done[i] == q[1..][..at][i - 1];
        }
      }
    DrainReachesRaise(m, s, q, Drain(m, s, q).at);
  }

  /** With every operation before `at` applicable and the one at `at` a
      failing save, the drain ends with the store the prefix left. */
  lemma DrainReachesRaise(m: Marshal, s: Store, q: Queue, at: nat)
    requires at < |q| && Applicable(q[..at])
    requires q[at].cmd == Save && |q[at].rec.config.cachedFields| == 0
    ensures Drain(m, s, q[..at]).Done?
    ensures Drain(m, s, q).store == Drain(m, s, q[..at]).store
  {
    var pre, post := q[..at], q[at..];
    assert q == pre + post;
    DrainCompletesIffApplicable(m, s, pre);
    DrainAppend(m, s, pre, post);
    var s1 := Drain(m, s, pre).store;
    assert post[0] == q[at];
    assert Drain(m, s1, post) == Raised(s1, 0);
  }

  /** Draining a concatenation drains the first part, then the second part
      from where the first left Redis. */
  lemma {:induction false} DrainAppend(m: Marshal, s: Store, q1: Queue, q2: Queue)
    ensures Drain(m, s, q1).Raised? ==> Drain(m, s, q1 + q2) == Drain(m, s, q1)
    ensures Drain(m, s, q1).Done? ==>
      Drain(m, s, q1 + q2).store == Drain(m, Drain(m, s, q1).store, q2).store
    decreases |q1|
  {
    if |q1| == 0 {
      assert q1 + q2 == q2;
    } else {
      assert (q1 + q2)[0] == q1[0];
      assert (q1 + q2)[1..] == q1[1..] + q2;
      match Apply(m, s, q1[0])
      case None =>
      case Some(s') => DrainAppend(m, s', q1[1..], q2);
    }
  }

  /** Draining one operation is applying it. */
  lemma DrainSingle(m: Marshal, s: Store, op: Op)
    ensures Apply(m, s, op).Some? ==> Drain(m, s, [op]) == Done(Apply(m, s, op).value)
  {
    assert [op][1..] == [];
  }

  /** A concatenation is applicable exactly when both parts are. */
  lemma ApplicableAppend(a: Queue, b: Queue)
    ensures Applicable(a + b) <==> Applicable(a) && Applicable(b)
  {
    assert forall i :: 0 <= i < |a| ==> (a + b)[i] == a[i];
    assert forall i :: 0 <= i < |b| ==> (a + b)[|a| + i] == b[i];
  }

  /** The last operation naming a key decides it: when that operation is a
      destroy, the key is gone after the drain. */
  lemma LastDestroyWins(m: Marshal, s: Store, q1: Queue, r: Record, q2: Queue)
    requires Applicable(q1) && Applicable(q2)
    requires Untouched(q2, RecordKey(r))
    ensures Drain(m, s, q1 + [Op(Destroy, r)] + q2).Done?
    ensures RecordKey(r) !in Drain(m, s, q1 + [Op(Destroy, r)] + q2).store
  {
    var op := Op(Destroy, r);
    ApplicableAppend(q1, [op]);
    ApplicableAppend(q1 + [op], q2);
    DrainCompletesIffApplicable(m, s, q1 + [op] + q2);
    DrainAppend(m, s, q1 + [op], q2);
    DrainAppend(m, s, q1, [op]);
    DrainCompletesIffApplicable(m, s, q1);
    var s1 := Drain(m, s, q1).store;
    DrainSingle(m, s1, op);
  }

  /** ... and when it is a save, every cached field of that record holds the
      encoding of its raw value after the drain. */
  lemma LastSaveWins(m: Marshal, s: Store, q1: Queue, r: Record, q2: Queue, f: FieldName)
    requires Applicable(q1) && Applicable(q2)
    requires Untouched(q2, RecordKey(r))
    requires f in r.config.cachedFields
    ensures Drain(m, s, q1 + [Op(Save, r)] + q2).Done?
    ensures RecordKey(r) in Drain(m, s, q1 + [Op(Save, r)] + q2).store
    ensures var h := Drain(m, s, q1 + [Op(Save, r)] + q2).store[RecordKey(r)];
      f in h && h[f] == Encode(m, r.raw(f))
  {
    var op := Op(Save, r);
    ApplicableAppend(q1, [op]);
    ApplicableAppend(q1 + [op], q2);
    DrainCompletesIffApplicable(m, s, q1 + [op] + q2);
    DrainAppend(m, s, q1 + [op], q2);
    DrainAppend(m, s, q1, [op]);
    DrainCompletesIffApplicable(m, s, q1);
    var s1 := Drain(m, s, q1).store;
    DrainSingle(m, s1, op);
  }

  /** Saving a record twice ends the drain as saving it once does: the same
      hash when the class caches something, the same raise at the first
      entry when it caches nothing. So the duplicates the queue keeps are
      harmless. */
  lemma SaveIdempotent(m: Marshal, s: Store, r: Record)
    ensures Drain(m, s, [Op(Save, r), Op(Save, r)]) == Drain(m, s, [Op(Save, r)])
  {
    if |r.config.cachedFields| > 0 {
      SavedTwiceSameStore(m, s, r);
    }
  }

  lemma SavedTwiceSameStore(m: Marshal, s: Store, r: Record)
    requires |r.config.cachedFields| > 0
    ensures Drain(m, s, [Op(Save, r), Op(Save, r)]) == Drain(m, s, [Op(Save, r)])
  {
    var k := RecordKey(r);
    var s1 := AddToCache(m, s, r).value;
    var s2 := AddToCache(m, s1, r).value;
    assert [Op(Save, r), Op(Save, r)] == [Op(Save, r)] + [Op(Save, r)];
    DrainAppend(m, s, [Op(Save, r)], [Op(Save, r)]);
    DrainSingle(m, s, Op(Save, r));
    DrainSingle(m, s1, Op(Save, r));
    assert s2[k] == s1[k];
    assert s2 == s1;
  }

  /** What commit leaves behind. */
  datatype CommitOutcome = Committed(ctx: Context) | Failed(ctx: Context, at: nat)

  /** `redrecord_update_queue_commit`: drains the queue, then clears it.
      When Redis raises mid-drain the exception leaves the loop before the
      queue is cleared: the operations applied so far stay applied and the
      queue is kept as it was. */
  function OnCommit(m: Marshal, c: Context): (o: CommitOutcome)
    ensures o.Committed? <==> Applicable(c.queue)
    ensures o.Committed? ==> |o.ctx.queue| == 0
    ensures o.Failed? ==> o.ctx.queue == c.queue
    ensures o.Failed? ==> o.at < |c.queue| && c.queue[o.at].cmd == Save && |c.queue[o.at].rec.config.cachedFields| == 0
    ensures forall k :: Untouched(c.queue, k) ==> SameAt(c.store, o.ctx.store, k)
  {
    DrainCompletesIffApplicable(m, c.store, c.queue);
    match Drain(m, c.store, c.queue)
    case Done(s) => Committed(Context([], s))
    case Raised(s, at) =>
      DrainStopsAtFirstError(m, c.store, c.queue);
      Failed(Context(c.queue, s), at)
  }
}

=== FILE: wrappers.dfy ===
/** The optional value used for Redis replies that may be missing. */
module Wrappers {
  datatype Option<+T> = None | Some(value: T)
}

=== FILE: writethrough.dfy ===
/**
  Write-through of a record's cached fields (`add_to_cache!`) and removal of
  its hash (`remove_from_cache!`).
 */
module WriteThrough {
  import opened Codec
  import opened Redis
  import opened Records
  import opened Wrappers

  /** The HMSET arguments for a record: each declared cached field, in
      declaration order, with the encoding of its raw (uncached) value. */
  function CachePairs(m: Marshal, r: Record): (pairs: seq<(string, string)>)
    ensures |pairs| == |r.config.cachedFields|
    ensures forall i :: 0 <= i < |pairs| ==>
      pairs[i] == (r.config.cachedFields[i], Encode(m, r.raw(r.config.cachedFields[i])))
  {
    seq(|r.config.cachedFields|, i requires 0 <= i < |r.config.cachedFields| =>
      (r.config.cachedFields[i], Encode(m, r.raw(r.config.cachedFields[i]))))
  }

  /** `add_to_cache!`: one HMSET on the record's key. Each cached field ends
      up holding the encoding of its raw value; fields of the hash outside
      the cached list, and every other key, are left alone. A class with no
      cached field sends HMSET with no pair, which Redis rejects (`None`). */
  function AddToCache(m: Marshal, s: Store, r: Record): (res: Option<Store>)
    ensures res.None? <==> |r.config.cachedFields| == 0
    ensures res.Some? ==> RecordKey(r) in res.value
    ensures res.Some? ==> forall f :: f in r.config.cachedFields ==>
      f in res.value[RecordKey(r)] && res.value[RecordKey(r)][f] == Encode(m, r.raw(f))
    ensures res.Some? ==> forall f :: f !in r.config.cachedFields ==>
      (f in res.value[RecordKey(r)] <==> f in HGetAll(s, RecordKey(r))) &&
      (f in HGetAll(s, RecordKey(r)) ==> res.value[RecordKey(r)][f] == HGetAll(s, RecordKey(r))[f])
    ensures res.Some? ==> forall k :: k != RecordKey(r) ==> SameAt(s, res.value, k)
  {
    var pairs := CachePairs(m, r);
    PairsToMapConsistent(pairs);
    assert forall f :: f in PairsToMap(pairs) ==> f in r.config.cachedFields;
    assert forall f :: f in r.config.cachedFields ==> f in PairsToMap(pairs) && PairsToMap(pairs)[f] == Encode(m, r.raw(f)) by {
      forall f | f in r.config.cachedFields
        ensures f in PairsToMap(pairs) && PairsToMap(pairs)[f] == Encode(m, r.raw(f))
      {
        var i :| 0 <= i < |r.config.cachedFields| && r.config.cachedFields[i] == f;
        assert pairs[i].0 == f;
      }
    }
    HMSet(s, RecordKey(r), pairs)
  }

  /** `remove_from_cache!`: DEL on the record's key. */
  function RemoveFromCache(s: Store, r: Record): (res: Store)
    ensures RecordKey(r) !in res
    ensures forall k :: k != RecordKey(r) ==> SameAt(s, res, k)
  {
    Del(s, RecordKey(r))
  }

  /** What `add_to_cache!` writes reads back as the raw value: decoding the
      stored string of any cached field gives the field's raw value. */
  lemma WriteThenDecode(m: Marshal, s: Store, r: Record, f: FieldName)
    requires Lawful(m)
    requires f in r.config.cachedFields
    ensures AddToCache(m, s, r).Some?
    ensures Decode(m, AddToCache(m, s, r).value[RecordKey(r)][f]) == r.raw(f)
  {
    RoundTrip(m, r.raw(f));
  }
}
